=== FILE: README.md ===
# Audio converter core in Dafny

This project models the core of a browser audio converter. Users drop audio
files onto a page, and each file goes through FFmpeg compiled to WebAssembly,
one file at a time. The result is downloaded as an M4A, MP3 or Opus file.

Two parts of the source are modelled:

- **The conversion queue** (`ConversionQueue`, src/engine/queue.js).
  - It holds an ordered list of jobs, an `isProcessing` flag and an optional
    wake-lock handle.
  - `addFiles` appends waiting jobs.
  - `processNext` does three things in turn:
    - it selects the earliest waiting job;
    - it requests a wake lock when none is held;
    - it runs the conversion, completes the job or marks it as an error, and
      calls itself again, until nothing is waiting.
  - Once nothing is waiting, it releases the wake lock.
- **The wrapper around FFmpeg** (src/engine/ffmpegEngine.js).
  - It keeps one memoised FFmpeg instance.
  - It builds the command line for each target format.
  - It takes the input extension from the file name.
  - It attaches a progress listener around a conversion and removes it again.
  - It reads `bitrate: N kb/s` out of FFmpeg's log while probing a file.

Modules:

- `Wrappers`: `Option` and `Result`.
- `FileNames`: two rules.
  - The download name: the extension is stripped with `\.[^/.]+$`, then
    `.ext` is appended.
  - The input extension: the text after the last dot, lower-cased.
- `BitrateLog`: the regular expression `bitrate: (\d+) kb\/s`, matched
  leftmost as `String.prototype.match` does. Each match overwrites the
  bitrate found so far.
- `FFmpegEngine`:
  - `FFmpeg` stands for the library's instance: its listener lists and the
    commands run on it.
  - `Engine` is the module-level memoised instance, with `initFFmpeg`,
    `convertAudio` and `getFileInfo`.
  - `BuildArgs` builds the argument list.
- `Queue`: the `ConversionQueue` class.
  - `processNext` is cut into steps at the points where it waits for a
    collaborator's result. `ProcessNext` is the guard and selection. Then
    come `AcquireWakeLock` (the request and its stored result),
    `ReportProgress` (the progress callback) and `Complete` (the outcome and
    the `finally` block).
  - The self-call in `finally` becomes the loop of `Drain`.
  - The calls into three collaborators are appended to the `calls` trace:
    - the observer's `onStatusChange` snapshot;
    - a wake-lock request or release;
    - a download.
  - The calls into the engine (`initFFmpeg`, `convertAudio`) are not
    recorded. Only their outcome enters the model.
  - What a drain does is stated by the function `Settled`. The k-th waiting
    job, earliest first, takes the k-th backend outcome, and every other job
    stays as it is. `Drain` is proved to reach exactly that state.

The FFmpeg library, the wake-lock API and the download code are external
collaborators. What they return comes in as parameters:
- `loads`, `written`, `run` and `logs` for the engine;
- an `Attempt` per selected job for the queue: the wake lock granted, the
  progress values reported, and how initialisation and conversion end.

The random ids and scratch-file tokens are parameters too.

## Model

| member | source | states |
|---|---|---|
| FileNames.StripExtension | src/engine/queue.js:61 | The base name is a prefix of the name. When it differs, the removed suffix is a dot followed by one or more characters, none of them a dot or a slash. When the name is kept whole, no suffix of it has that form. |
| FileNames.ExtensionSuffixStartsAtLastDot | src/engine/queue.js:61 | A suffix the extension pattern matches starts at the last dot of the name, and no slash follows that dot. So at most one suffix can be stripped. |
| FileNames.OutputFileName | src/engine/queue.js:61 | The download name is the stripped base name, which is a prefix of the original name, followed by a dot and the extension. |
| FileNames.StripOutputFileName | src/engine/queue.js:61 | Stripping the extension from a download name gives the base name it was built from. This holds when the output extension is non-empty and has no dot and no slash. |
| FileNames.OutputFileNameIdempotent | src/engine/queue.js:61 | Building the download name again from a download name, with the same extension, changes nothing. |
| FileNames.OutputFileNameExamples | src/engine/queue.js:61 | Four examples with the `m4a` extension. `a.b.flac` gives `a.b.m4a`. `song` gives `song.m4a`. `foo.` is kept whole and gives `foo..m4a`. `fileA` gives `fileA.m4a`. |
| FileNames.ToLower | src/engine/ffmpegEngine.js:76 | The result has the same length, and each character is lower-cased if it is an ASCII capital. |
| FileNames.InputExtension | src/engine/ffmpegEngine.js:76 | The extension is the lower-cased longest suffix of the name that holds no dot. It is the text after the last dot, or the whole name when there is no dot. |
| FileNames.InputExtensionOfOutputFileName | src/engine/ffmpegEngine.js:76 | The input extension of a download name is the output extension it was given, lower-cased. |
| BitrateLog.DecimalValue | src/engine/ffmpegEngine.js:44 | `parseInt` of a digit string gives a value below ten to the power of its length. |
| BitrateLog.DecimalValueOfDigits | src/engine/ffmpegEngine.js:44 | `parseInt` of the decimal numeral of `n` reads back `n`. |
| BitrateLog.MatchAt | src/engine/ffmpegEngine.js:43-44 | At a position where the pattern matches, the digit group is the whole digit run there, and the value is that run read as a decimal number. Where it gives nothing, no group length lets the pattern match. |
| BitrateLog.GroupIsDigitRun | src/engine/ffmpegEngine.js:43 | Any digit group the pattern can match at a position is the whole run of digits there. Greedy `\d+` cannot match a shorter group. |
| BitrateLog.LeftmostMatch | src/engine/ffmpegEngine.js:43 | It returns the smallest position where the pattern matches, or reports that it matches nowhere. |
| BitrateLog.MessageBitrateIsLeftmost | src/engine/ffmpegEngine.js:43-44 | A message yields nothing exactly when the pattern matches nowhere in it. Otherwise it yields the digit group of the leftmost match. |
| BitrateLog.ReportedBitrateIsRead | src/engine/ffmpegEngine.js:43-44 | A message `bitrate: <n> kb/s` is read as `n`. |
| BitrateLog.LastReportedBitrate | src/engine/ffmpegEngine.js:41-45 | The bitrate is 0 or the value read from one of the messages. |
| BitrateLog.LastReportedBitrateStep | src/engine/ffmpegEngine.js:44 | Seeing one more message overwrites the bitrate when it matches and leaves it otherwise. |
| BitrateLog.LastReportedBitrateIsLastMatch | src/engine/ffmpegEngine.js:41-45 | The bitrate is 0 when no message matches. Otherwise it is the value read from the last message that matches. |
| BitrateLog.ParseBitrateLog | src/engine/ffmpegEngine.js:41-45 | The loop over the log messages, overwriting on each match, ends with `LastReportedBitrate` of the messages. |
| FFmpegEngine.Without | src/engine/ffmpegEngine.js:102 | Removing a listener drops every occurrence of it, keeps every other listener as often as it occurred, and adds none. |
| FFmpegEngine.WithoutConcat | src/engine/ffmpegEngine.js:102 | Filtering a concatenation filters each part and concatenates the results, so the remaining listeners keep their order. |
| FFmpegEngine.WithoutAppended | src/engine/ffmpegEngine.js:100-103 | Adding a listener that was not yet registered, then removing it, restores the listener list. |
| FFmpegEngine.FFmpeg.constructor | src/engine/ffmpegEngine.js:15 | A new instance has no listeners and has run no command. |
| FFmpegEngine.FFmpeg.On | src/engine/ffmpegEngine.js:72 | The listener is appended to the list for its event. Nothing else changes. |
| FFmpegEngine.FFmpeg.Off | src/engine/ffmpegEngine.js:102 | The listener is filtered out of the list for its event. Nothing else changes. |
| FFmpegEngine.FFmpeg.Exec | src/engine/ffmpegEngine.js:93 | The command is appended to the commands run. Nothing else changes. |
| FFmpegEngine.ScratchName | src/engine/ffmpegEngine.js:77-78 | A scratch name ends with its extension: the input extension for the input, the format for the output. With a dot-free extension, the last dot of the name sits just before it, so FFmpeg sees that extension. |
| FFmpegEngine.BuildArgs | src/engine/ffmpegEngine.js:82-92 | The list starts with `-i input -map_metadata 0 -map 0:a -map 0:v?` and ends with the output name. Between them, `m4a` adds `-c:a aac`, `mp3` adds `-c:a libmp3lame` and `opus` adds `-c:a libopus`, each followed by `-b:a <bitrate> -c:v copy`. Any other format adds nothing. |
| FFmpegEngine.Engine.constructor | src/engine/ffmpegEngine.js:7 | The module starts with no instance. |
| FFmpegEngine.Engine.InitFFmpeg | src/engine/ffmpegEngine.js:12-30 | Once an instance is stored, it returns that same instance and creates nothing. Otherwise it creates and stores a fresh instance with one log listener, no progress listener and no command run. It fails with a load error exactly when the load fails, and the instance stays stored. |
| FFmpegEngine.Engine.ConvertAudio | src/engine/ffmpegEngine.js:65-104 | It succeeds exactly when an instance is already stored, or the load succeeds, and the backend produces output. It then returns that output with `options.format` as the extension. Each failure has its error. The command run is `BuildArgs` for the scratch names built from the lower-cased input extension and the format. With an instance already stored, the progress and log listeners are as before the call. On a first call, the fresh instance holds no progress listener and only the console log listener. |
| FFmpegEngine.Engine.GetFileInfo | src/engine/ffmpegEngine.js:35-57 | It succeeds exactly when an instance is already stored, or the load succeeds, and the input is written. The result is the bitrate from the last matching log message, or 0. The command run is `-i info_<token>`, and its failure is swallowed. The probe's log listener is detached again. With an instance already stored, the listeners are as before the call. On a first call, the fresh instance holds only the console log listener. |
| Queue.FirstWaiting | src/engine/queue.js:34 | The selected index holds a waiting job and no earlier job is waiting. When it gives nothing, no job is waiting. |
| Queue.NoWaitingIffCountZero | src/engine/queue.js:34-35 | No job is found to be waiting exactly when the waiting count is 0. |
| Queue.StartStepKeepsSingleFlight | src/engine/queue.js:31-45 | The start of `processNext` keeps the single-flight discipline. The discipline: at most one job processing, one exactly when `isProcessing` is set, a wake lock only with jobs, and every snapshot shown with at most one processing. Jobs only move forward, and the selected job is processing. |
| Queue.AppendWaitingKeepsSingleFlight | src/engine/queue.js:14-21 | Appending waiting jobs keeps the single-flight discipline and leaves every earlier job as it was. |
| Queue.NoticeKeepsSingleFlight | src/engine/queue.js:27 | Showing the current queue to the observer keeps the single-flight discipline. |
| Queue.EvolvesTransitive | src/engine/queue.js:44 | Moving forward composes. File, options and id never change, a finished job never changes, and a processing job never waits again. |
| Queue.Finished | src/engine/queue.js:64-68 | A job ends in a terminal state, completed exactly when its run succeeded. Its file, options and id are kept. A completed job is at 100, and a failed job keeps its progress. |
| Queue.CountWaitingSettled | src/engine/queue.js:72 | Each outcome used finishes one waiting job. The waiting count drops by the number of outcomes, down to 0. |
| Queue.SettledExtend | src/engine/queue.js:47-72 | One more outcome finishes the earliest job still waiting, and only that job. Once none is waiting, further outcomes change nothing. |
| Queue.SettledSaturated | src/engine/queue.js:35-40 | Once no job is waiting, any further outcomes leave the queue as it is. |
| Queue.SettledAt | src/engine/queue.js:34 | First in, first out, and each job on its own. A job that was the r-th waiting one ends as the r-th outcome made it, and any other job is untouched. |
| Queue.AllSucceed | src/engine/queue.js:64-65 | When every outcome succeeds and there are enough of them, every waiting job ends completed at 100, and every other job is untouched. |
| Queue.FailureIsolated | src/engine/queue.js:66-72 | When exactly one outcome fails, exactly the job that took it ends in error, and every other waiting job completes. |
| Queue.RunStarts | src/engine/queue.js:31-45 | The start step from an idle queue either ends the run at once, with every job as it was and no wake lock, or selects the earliest waiting job. |
| Queue.RunEnds | src/engine/queue.js:35-40 | A run that stopped because nothing is waiting, or because the outcomes ran out, is where `Drain` promises. With enough outcomes, every job is as `Settled` says, nothing is processing and no wake lock is held. With too few, the earliest job still waiting is selected. |
| Queue.ConversionQueue.constructor | src/engine/queue.js:6-11 | The queue starts empty and idle, with no wake lock and no calls made. |
| Queue.ConversionQueue.AddFiles | src/engine/queue.js:13-29 | It returns one waiting job per file, in order, with progress 0, the given options and the given id. The queue becomes the old queue followed by exactly those jobs. With `autoStart`, the start step follows. Then the observer sees the queue. Single-flight is kept. |
| Queue.ConversionQueue.ProcessNext | src/engine/queue.js:31-45 | It changes nothing when busy or empty. When nothing is waiting, it releases and clears a held wake lock and changes nothing else. Otherwise it sets the earliest waiting job, and only that job, to processing, sets `isProcessing` and shows a snapshot. |
| Queue.ConversionQueue.AcquireWakeLock | src/engine/queue.js:48-50 | A wake lock is requested only when none is held, and the result is stored. A held lock is kept and nothing is requested. |
| Queue.ConversionQueue.ReportProgress | src/engine/queue.js:56-59 | Only the running job's progress changes, to the value reported. The observer sees the queue. |
| Queue.ConversionQueue.Complete | src/engine/queue.js:60-71 | On success, the download gets the data under `OutputFileName` of the file name and the extension, and the job ends completed at 100. On any failure, initialisation included, the job ends in error with its progress kept, and nothing is rethrown. Either way `isProcessing` is cleared and the observer sees the queue. |
| Queue.ConversionQueue.RunSelected | src/engine/queue.js:47-71 | One selected job runs through the wake lock, its progress reports and its end. It ends as `AfterAttempt` says, nothing is processing, and only a missing wake lock is replaced. |
| Queue.ConversionQueue.GetQueue | src/engine/queue.js:76-78 | It returns the jobs, in order. |
| Queue.ConversionQueue.Advance | src/engine/queue.js:72 | One more job run followed by the self-call moves the run from `Settled` after the earlier outcomes to `Settled` after one more. |
| Queue.ConversionQueue.Drain | src/engine/queue.js:31-73 | A busy queue is left untouched. An idle queue with an outcome for every waiting job drains. Every job then ends as `Settled` says, nothing is processing and no wake lock is held. With fewer outcomes, the earliest job left waiting is the one selected. |

## Left out

- The asynchronous interleavings are not modelled.
  - `processNext` is modelled as a sequence of steps driven in order.
  - `addFiles` with `autoStart` does not await the call, and a second
    `addFiles` or `processNext` could interleave with a running job.
  - `initFFmpeg` stores the instance before the load completes. A concurrent
    caller can see an instance that is not loaded yet.
- Jobs are values in a sequence. In the source they are shared objects: the
  selected job is mutated in place, and the snapshots given to
  `onStatusChange` are shallow copies that alias them. The model records
  each snapshot by value.
- Queue.ConversionQueue.AddFiles: the source returns the very objects it
  appended. With `autoStart`, the first of them is already `processing`
  when `addFiles` returns, because the start of `processNext` mutated it.
  The model returns the jobs as they were appended, all `waiting`. The queue
  itself holds the selected job as processing.
- Queue.ConversionQueue.AcquireWakeLock: the wake-lock request is recorded
  together with its result, when the result is stored. In the source,
  `requestWakeLock` issues the platform request synchronously, before the
  first `await` of `processNext`. So with `autoStart` and no lock held, the
  source issues the request before `addFiles` shows its final snapshot. The
  model's trace puts it after that snapshot.
- `addFiles` hands `onStatusChange` the queue array itself, not a copy. By
  value this is the same.
- Queue.ConversionQueue.ReportProgress: progress is an integer here. The
  source relays `progress * 100` from the library, which is floating point,
  without clamping. No monotonicity is claimed, because the code does not
  enforce it.
- Queue.ConversionQueue.RunSelected: it states only that the `calls` trace
  grows. The exact calls are stated step by step by `AcquireWakeLock`,
  `ReportProgress` and `Complete`.
- Queue.ConversionQueue.Drain: for a full drain it states the final jobs,
  flag and wake lock. For a run that stops early, with fewer outcomes than
  waiting jobs, it states the jobs, the flag and the selected job, but not
  the wake lock. In neither case does it state the `calls` trace made on
  the way.
- `console` logging is left out, and so is the console log listener's output.
  The listener itself is registered.
- The random ids (`Math.random` in `addFiles`) and the random scratch-file
  tokens are parameters. The source gives no uniqueness guarantee for them,
  so none is proved.
- Some external code is not part of this model:
  - src/engine/wakeLock.js: a request yields a handle or none, and never
    throws. A release is a recorded call.
  - src/utils/download.js: `triggerDownload` is a recorded call with the data
    and the file name, and is taken not to throw.
  - src/utils/deviceCheck.js and src/ui/Converter.jsx.
- The default options of `addFiles` and `convertAudio` (`m4a` at `256k`) are
  not modelled. Callers pass the options explicitly.
- The FFmpeg library calls (`load`, `toBlobURL`, `fetchFile`, `writeFile`,
  `exec`, `readFile`, `deleteFile`) are foreign I/O. Their effect is given as
  parameters.
- FFmpegEngine.Engine.GetFileInfo: the final `deleteFile` of the scratch file
  is not modelled, so a failure there is not an error path of the model.
- `String.prototype.toLowerCase` is modelled on ASCII letters only. Unicode
  case mapping is not.
- `parseInt` is modelled on unbounded integers. JavaScript numbers lose
  precision above 2^53.
- A queue job's outcome (`Attempt.result`) is a parameter, not the result of
  calling `Engine.ConvertAudio`. The two share their result types.
- A failed load leaves the instance memoised, as the code does. Later
  `initFFmpeg` calls return that instance without loading it again.
- The code has no per-job completion callback, so none is modelled.

=== FILE: bitrate_log.dfy ===
/**
 * Reading the input bitrate out of FFmpeg's log (src/engine/ffmpegEngine.js:41-45):
 * every log message is searched for `bitrate: (\d+) kb\/s`, and each message
 * that matches overwrites the bitrate found so far with `parseInt` of its digits.
 */
module BitrateLog {
  import opened Wrappers

  predicate IsDigit(c: char) {
    '0' <= c <= '9'
  }

  predicate AllDigits(s: string) {
    forall j :: 0 <= j < |s| ==> IsDigit(s[j])
  }

  function DigitValue(c: char): nat
    requires IsDigit(c)
  {
    c as int - '0' as int
  }

  /** Ten to the power `k`. */
  function Pow10(k: nat): nat {
    if k == 0 then 1 else 10 * Pow10(k - 1)
  }

  /** The value of a string of decimal digits, as `parseInt` reads it: below ten to the number of digits. */
  function DecimalValue(ds: string): (v: nat)
    requires AllDigits(ds)
    ensures v < Pow10(|ds|)
  {
    if ds == [] then 0
    else
      var high := DecimalValue(ds[..|ds| - 1]);
      assert high * 10 + 10 <= Pow10(|ds| - 1) * 10;
      high * 10 + DigitValue(ds[|ds| - 1])
  }

  /** The decimal numeral of `n`, without leading zeros. */
  function Digits(n: nat): (ds: string)
    ensures |ds| >= 1 && AllDigits(ds)
  {
    var last := ['0' + (n % 10) as char];
    if n < 10 then last else Digits(n / 10) + last
  }

  lemma {:induction false} DecimalValueOfDigits(n: nat)
    ensures DecimalValue(Digits(n)) == n
  {
    var ds := Digits(n);
    if n >= 10 {
      assert ds[..|ds| - 1] == Digits(n / 10);
      DecimalValueOfDigits(n / 10);
    }
  }

  const Label: string := "bitrate: "
  const Unit: string := " kb/s"

  /** The pattern matched at position `p` with a digit group of length `k`. */
  predicate MatchesWith(m: string, p: nat, k: nat) {
    var d := p + |Label|;
    k >= 1 && d + k + |Unit| <= |m| &&
    m[p..d] == Label && AllDigits(m[d..d + k]) && m[d + k..d + k + |Unit|] == Unit
  }

  /** The length of the run of decimal digits that starts at position `p`. */
  function DigitRun(s: string, p: nat): (n: nat)
    requires p <= |s|
    ensures p + n <= |s|
    ensures forall j :: p <= j < p + n ==> IsDigit(s[j])
    ensures p + n < |s| ==> !IsDigit(s[p + n])
    decreases |s| - p
  {
    if p < |s| && IsDigit(s[p]) then 1 + DigitRun(s, p + 1) else 0
  }

  /**
   * The value of the digit group when the pattern matches at position `p`.
   * `\d+` takes the whole digit run: the text after the group must start with
   * a space, which is not a digit, so no shorter group can match instead.
   */
  function MatchAt(m: string, p: nat): (r: Option<nat>)
    requires p <= |m|
    ensures r.Some? ==> p + |Label| <= |m| && MatchesWith(m, p, DigitRun(m, p + |Label|)) &&
                        r.value == DecimalValue(m[p + |Label|..p + |Label| + DigitRun(m, p + |Label|)])
    ensures r.None? ==> forall k :: !MatchesWith(m, p, k)
  {
    var d := p + |Label|;
    if d <= |m| && m[p..d] == Label then
      var n := DigitRun(m, d);
      if MatchesWith(m, p, n) then
        Some(DecimalValue(m[d..d + n]))
      else
        forall k | MatchesWith(m, p, k) ensures false {
          GroupIsDigitRun(m, p, k);
        }
        None
    else None
  }

  /** Any digit group the pattern can match at `p` is the whole digit run there. */
  lemma GroupIsDigitRun(m: string, p: nat, k: nat)
    requires MatchesWith(m, p, k)
    ensures k == DigitRun(m, p + |Label|)
  {
    var d := p + |Label|;
    var n := DigitRun(m, d);
    assert m[d + k] == m[d + k..d + k + |Unit|][0] == ' ';
    forall j | d <= j < d + k ensures IsDigit(m[j]) {
      assert m[j] == m[d..d + k][j - d];
    }
  }

  /** The leftmost position at or after `p` where the pattern matches, as `String.prototype.match` finds it. */
  function LeftmostMatch(m: string, p: nat): (r: Option<nat>)
    requires p <= |m|
    ensures r.Some? ==> p <= r.value <= |m| && MatchAt(m, r.value).Some?
    ensures r.Some? ==> forall q :: p <= q < r.value ==> MatchAt(m, q).None?
    ensures r.None? ==> forall q :: p <= q <= |m| ==> MatchAt(m, q).None?
    decreases |m| - p
  {
    if MatchAt(m, p).Some? then Some(p)
    else if p == |m| then None
    else LeftmostMatch(m, p + 1)
  }

  /** What the log handler reads from one message: the digit group of the leftmost match, if any. */
  function MessageBitrate(m: string): Option<nat> {
    match LeftmostMatch(m, 0)
    case Some(q) => MatchAt(m, q)
    case None => None
  }

  /** A message yields a bitrate exactly when the pattern matches somewhere in it, and then it is the value at the leftmost match. */
  lemma MessageBitrateIsLeftmost(m: string)
    ensures MessageBitrate(m).None? <==> forall p :: 0 <= p <= |m| ==> MatchAt(m, p).None?
    ensures forall p :: 0 <= p <= |m| && MatchAt(m, p).Some? && (forall q :: 0 <= q < p ==> MatchAt(m, q).None?) ==>
              MessageBitrate(m) == MatchAt(m, p)
  {
  }

  /** A message that reports `n` kb/s is read as `n`. */
  lemma ReportedBitrateIsRead(n: nat)
    ensures MessageBitrate(Label + Digits(n) + Unit) == Some(n)
  {
    var ds := Digits(n);
    var m := Label + ds + Unit;
    var d := |Label|;
    forall j | 0 <= j < |ds| ensures m[d + j] == ds[j] { }
    assert m[..d] == Label;
    assert m[d..d + |ds|] == ds;
    assert m[d + |ds|..d + |ds| + |Unit|] == Unit;
    assert MatchesWith(m, 0, |ds|);
    GroupIsDigitRun(m, 0, |ds|);
    DecimalValueOfDigits(n);
  }

  /** The bitrate after the handler has seen `logs` in order. */
  function LastReportedBitrate(logs: seq<string>): (b: nat)
    ensures b == 0 || exists i :: 0 <= i < |logs| && MessageBitrate(logs[i]) == Some(b)
  {
    if logs == [] then 0
    else match MessageBitrate(logs[|logs| - 1])
      case Some(v) => v
      case None =>
        var init := logs[..|logs| - 1];
        assert forall i :: 0 <= i < |init| ==> init[i] == logs[i];
        LastReportedBitrate(init)
  }

  /** No message of `logs` after index `i` matches. */
  predicate NoMatchAfter(logs: seq<string>, i: int) {
    forall j :: 0 <= j < |logs| && i < j ==> MessageBitrate(logs[j]).None?
  }

  /** A last message that matches sets the bitrate, and no earlier message is the last match. */
  lemma MatchedLast(logs: seq<string>)
    requires logs != [] && MessageBitrate(logs[|logs| - 1]).Some?
    ensures LastReportedBitrate(logs) == MessageBitrate(logs[|logs| - 1]).value
    ensures !NoMatchAfter(logs, -1)
    ensures forall i :: 0 <= i < |logs| - 1 ==> !NoMatchAfter(logs, i)
  {
  }

  /** A last message that does not match can be dropped: the bitrate and the earlier messages stay. */
  lemma DropUnmatchedLast(logs: seq<string>)
    requires logs != [] && MessageBitrate(logs[|logs| - 1]).None?
    ensures LastReportedBitrate(logs) == LastReportedBitrate(logs[..|logs| - 1])
    ensures forall i :: -1 <= i < |logs| - 1 && NoMatchAfter(logs, i) ==> NoMatchAfter(logs[..|logs| - 1], i)
    ensures forall i :: 0 <= i < |logs| - 1 ==> logs[i] == logs[..|logs| - 1][i]
  {
    var init := logs[..|logs| - 1];
    forall i | -1 <= i < |logs| - 1 && NoMatchAfter(logs, i) ensures NoMatchAfter(init, i) {
      forall j | 0 <= j < |init| && i < j ensures MessageBitrate(init[j]).None? {
        assert init[j] == logs[j];
      }
    }
  }

  /** The bitrate is 0 when no message matched, and otherwise the value read from the last message that matched. */
  lemma {:induction false} LastReportedBitrateIsLastMatch(logs: seq<string>)
    ensures NoMatchAfter(logs, -1) ==> LastReportedBitrate(logs) == 0
    ensures forall i :: 0 <= i < |logs| && MessageBitrate(logs[i]).Some? && NoMatchAfter(logs, i) ==>
                        LastReportedBitrate(logs) == MessageBitrate(logs[i]).value
  {
    if logs != [] {
      var n := |logs|;
      if MessageBitrate(logs[n - 1]).Some? {
        MatchedLast(logs);
      } else {
        LastReportedBitrateIsLastMatch(logs[..n - 1]);
        DropUnmatchedLast(logs);
      }
    }
  }

  /** Seeing one more message: a match overwrites the bitrate, anything else leaves it. */
  lemma LastReportedBitrateStep(logs: seq<string>, i: nat)
    requires i < |logs|
    ensures LastReportedBitrate(logs[..i + 1]) ==
      match MessageBitrate(logs[i]) case Some(v) => v case None => LastReportedBitrate(logs[..i])
  {
    var prefix := logs[..i + 1];
    assert prefix[|prefix| - 1] == logs[i];
    assert prefix[..|prefix| - 1] == logs[..i];
  }

  /**
   * The log handler of `getFileInfo`, run on each message FFmpeg logs while
   * probing the file: a match overwrites the bitrate, anything else leaves it.
   */
  method ParseBitrateLog(logs: seq<string>) returns (bitrate: nat)
    ensures bitrate == LastReportedBitrate(logs)
  {
    bitrate := 0;
    var i := 0;
    while i < |logs|
      invariant 0 <= i <= |logs|
      invariant bitrate == LastReportedBitrate(logs[..i])
    {
      var found := MessageBitrate(logs[i]);
      if found.Some? {
        bitrate := found.value;
      }
      LastReportedBitrateStep(logs, i);
      i := i + 1;
    }
    assert logs[..i] == logs;
  }
}

=== FILE: ffmpeg_engine.dfy ===
/**
 * The transcoding wrapper around FFmpeg WASM (src/engine/ffmpegEngine.js).
 *
 * The FFmpeg library is foreign: what its calls return (loading the core,
 * writing and reading the virtual file system, running a command) comes in as
 * parameters. What is modelled is the wrapper's own logic: the memoised
 * module-level instance, the listeners it registers and removes on that
 * instance, the command line it hands to `exec`, and what it returns.
 */
module FFmpegEngine {
  import opened Wrappers
  import opened FileNames
  import opened BitrateLog

  type Bytes = seq<bv8>

  /** An input file: its name and its bytes. */
  datatype File = File(name: string, content: Bytes)

  /** The target of a conversion: a format name and a bitrate string such as "256k". */
  datatype Options = Options(format: string, bitrate: string)

  /** What a successful conversion resolves with. */
  datatype Converted = Converted(data: Bytes, extension: string)

  /** What `getFileInfo` resolves with. */
  datatype FileInfo = FileInfo(bitrate: nat)

  /** The ways a conversion or a probe can throw. */
  datatype EngineError =
    | LoadFailed      // the FFmpeg core could not be fetched or loaded
    | InputRejected   // the input file could not be written to FFmpeg's file system
    | ExecFailed      // running the command, reading the output or cleaning up failed

  /** What the library does with one conversion once the engine is initialised. */
  datatype BackendRun =
    | WriteFails           // `writeFile` of the input throws; `exec` is never called
    | ExecFails            // `exec`, `readFile` or `deleteFile` throws
    | Produces(data: Bytes) // the output file's bytes

  /** The two events the wrapper listens to. */
  datatype EventKind = Log | Progress

  /** A callback registered on the FFmpeg instance; only its identity matters. */
  class Listener { }

  /** `s` without any occurrence of `x`, as the library's `off` filters its callback list. */
  function Without(s: seq<Listener>, x: Listener): (r: seq<Listener>)
    ensures |r| <= |s|
    ensures x !in r
    ensures forall k :: 0 <= k < |r| ==> r[k] in s
    ensures forall k :: 0 <= k < |s| && s[k] != x ==> s[k] in r
    ensures multiset(r) == multiset(s)[x := 0]
  {
    if s == [] then []
    else
      assert s == [s[0]] + s[1..];
      (if s[0] == x then [] else [s[0]]) + Without(s[1..], x)
  }

  /** Filtering works piece by piece, so the listeners that remain keep their order. */
  lemma {:induction false} WithoutConcat(a: seq<Listener>, b: seq<Listener>, x: Listener)
    ensures Without(a + b, x) == Without(a, x) + Without(b, x)
  {
    if a == [] {
      assert a + b == b;
    } else {
      var head := if a[0] == x then [] else [a[0]];
      var ab := a + b;
      assert ab[0] == a[0] && ab[1..] == a[1..] + b;
      WithoutConcat(a[1..], b, x);
      calc {
        Without(ab, x);
        head + Without(a[1..] + b, x);
        head + (Without(a[1..], x) + Without(b, x));
        { SeqAssoc(head, Without(a[1..], x), Without(b, x)); }
        (head + Without(a[1..], x)) + Without(b, x);
        Without(a, x) + Without(b, x);
      }
    }
  }

  /** Concatenation regroups freely. */
  lemma SeqAssoc<T>(p: seq<T>, q: seq<T>, r: seq<T>)
    ensures p + (q + r) == (p + q) + r
  {
  }

  /** Registering a listener that was not registered and then removing it restores the list. */
  lemma {:induction false} WithoutAppended(s: seq<Listener>, x: Listener)
    requires x !in s
    ensures Without(s + [x], x) == s
  {
    if s == [] {
      assert s + [x] == [x];
    } else {
      var sx := s + [x];
      assert sx[0] == s[0] != x && sx[1..] == s[1..] + [x];
      WithoutAppended(s[1..], x);
      assert Without(sx, x) == [s[0]] + s[1..];
    }
  }

  /** The part of an FFmpeg WASM instance the wrapper touches: its callback lists and the commands run on it. */
  class FFmpeg {
    var logListeners: seq<Listener>
    var progressListeners: seq<Listener>
    var execCalls: seq<seq<string>>

    constructor ()
      ensures logListeners == [] && progressListeners == [] && execCalls == []
    {
      logListeners, progressListeners, execCalls := [], [], [];
    }

    /** `ffmpeg.on(event, callback)`: appends the callback to that event's list. */
    method On(event: EventKind, l: Listener)
      modifies this
      ensures event == Log ==> logListeners == old(logListeners) + [l] && progressListeners == old(progressListeners)
      ensures event == Progress ==> progressListeners == old(progressListeners) + [l] && logListeners == old(logListeners)
      ensures execCalls == old(execCalls)
    {
      if event == Log {
        logListeners := logListeners + [l];
      } else {
        progressListeners := progressListeners + [l];
      }
    }

    /** `ffmpeg.off(event, callback)`: drops the callback from that event's list. */
    method Off(event: EventKind, l: Listener)
      modifies this
      ensures event == Log ==> logListeners == Without(old(logListeners), l) && progressListeners == old(progressListeners)
      ensures event == Progress ==> progressListeners == Without(old(progressListeners), l) && logListeners == old(logListeners)
      ensures execCalls == old(execCalls)
    {
      if event == Log {
        logListeners := Without(logListeners, l);
      } else {
        progressListeners := Without(progressListeners, l);
      }
    }

    /** `ffmpeg.exec(args)`: records the command line; its outcome is a parameter of the caller. */
    method Exec(args: seq<string>)
      modifies this
      ensures execCalls == old(execCalls) + [args]
      ensures logListeners == old(logListeners) && progressListeners == old(progressListeners)
    {
      execCalls := execCalls + [args];
    }
  }

  /** The arguments every conversion starts with: read the input, keep its metadata, its audio and any cover art. */
  function FixedArgs(inputName: string): seq<string> {
    ["-i", inputName, "-map_metadata", "0", "-map", "0:a", "-map", "0:v?"]
  }

  /** The audio encoder FFmpeg is asked for, for the formats the wrapper knows. */
  function Encoder(format: string): Option<string> {
    if format == "m4a" then Some("aac")
    else if format == "mp3" then Some("libmp3lame")
    else if format == "opus" then Some("libopus")
    else None
  }

  /** The full command line for one conversion. */
  function ConversionArgs(inputName: string, format: string, bitrate: string, outputName: string): seq<string> {
    FixedArgs(inputName) +
    (match Encoder(format)
     case Some(codec) => ["-c:a", codec, "-b:a", bitrate, "-c:v", "copy"]
     case None => []) +
    [outputName]
  }

  /**
   * A scratch name in FFmpeg's file system: `input_` or `output_`, a random
   * token, a dot and an extension. With a dot-free extension the last dot of
   * the name sits just before the extension, so FFmpeg sees that extension.
   */
  function ScratchName(prefix: string, token: string, extension: string): (r: string)
    ensures |r| > |extension|
    ensures Lacks(extension, '.') ==> LastIndexOf(r, '.') == Some(|r| - |extension| - 1)
    ensures r[|r| - |extension|..] == extension
  {
    var r := prefix + token + "." + extension;
    if Lacks(extension, '.') then
      LastDotOfJoin(prefix + token, extension);
      r
    else r
  }

  /** The argument list of `convertAudio`, built by pushing onto the fixed prefix. */
  method BuildArgs(inputName: string, format: string, bitrate: string, outputName: string) returns (args: seq<string>)
    ensures |args| >= 9
    ensures args[..8] == ["-i", inputName, "-map_metadata", "0", "-map", "0:a", "-map", "0:v?"]
    ensures args[|args| - 1] == outputName
    ensures format == "m4a" ==> args[8..|args| - 1] == ["-c:a", "aac", "-b:a", bitrate, "-c:v", "copy"]
    ensures format == "mp3" ==> args[8..|args| - 1] == ["-c:a", "libmp3lame", "-b:a", bitrate, "-c:v", "copy"]
    ensures format == "opus" ==> args[8..|args| - 1] == ["-c:a", "libopus", "-b:a", bitrate, "-c:v", "copy"]
    ensures format != "m4a" && format != "mp3" && format != "opus" ==> args == FixedArgs(inputName) + [outputName]
    ensures args == ConversionArgs(inputName, format, bitrate, outputName)
  {
    args := ["-i", inputName, "-map_metadata", "0", "-map", "0:a", "-map", "0:v?"];
    if format == "m4a" {
      args := args + ["-c:a", "aac", "-b:a", bitrate, "-c:v", "copy"];
    } else if format == "mp3" {
      args := args + ["-c:a", "libmp3lame", "-b:a", bitrate, "-c:v", "copy"];
    } else if format == "opus" {
      args := args + ["-c:a", "libopus", "-b:a", bitrate, "-c:v", "copy"];
    }
    args := args + [outputName];
  }

  /** The module-level state of the wrapper: the memoised FFmpeg instance, `null` until first use. */
  class Engine {
    var ffmpeg: FFmpeg?

    constructor ()
      ensures ffmpeg == null
    {
      ffmpeg := null;
    }

    /** The commands run on the instance so far, seen from before a call that may create it. */
    ghost function ExecHistory(): seq<seq<string>>
      reads this, ffmpeg
    {
      if ffmpeg == null then [] else ffmpeg.execCalls
    }

    /**
     * `initFFmpeg`: returns the memoised instance when there is one and
     * constructs nothing. Otherwise it creates the instance, stores it at once,
     * attaches the console log listener, and loads the core, which can fail.
     * A failed load leaves the new instance stored.
     */
    method InitFFmpeg(loads: bool) returns (r: Result<FFmpeg, EngineError>)
      modifies this
      ensures ffmpeg != null
      ensures old(ffmpeg) != null ==> ffmpeg == old(ffmpeg) && r == Ok(ffmpeg)
      ensures old(ffmpeg) == null ==> fresh(ffmpeg) && r == (if loads then Ok(ffmpeg) else Err(LoadFailed))
      ensures old(ffmpeg) == null ==>
        |ffmpeg.logListeners| == 1 && ffmpeg.progressListeners == [] && ffmpeg.execCalls == []
    {
      if ffmpeg != null {
        return Ok(ffmpeg);
      }
      var instance := new FFmpeg();
      ffmpeg := instance;
      var console := new Listener;
      instance.On(Log, console);
      if !loads {
        return Err(LoadFailed);
      }
      return Ok(instance);
    }

    /**
     * `convertAudio`: initialises the engine if needed, attaches a fresh
     * progress listener, runs the command for `options` and detaches the
     * listener whether the run succeeds or throws. A success resolves with the
     * output bytes and `options.format` as the extension.
     */
    method ConvertAudio(file: File, options: Options, inputToken: string, outputToken: string,
                        loads: bool, run: BackendRun)
      returns (r: Result<Converted, EngineError>)
      modifies this, ffmpeg
      ensures ffmpeg != null
      ensures old(ffmpeg) != null ==> ffmpeg == old(ffmpeg)
      ensures old(ffmpeg) != null ==>
        ffmpeg.progressListeners == old(ffmpeg.progressListeners) && ffmpeg.logListeners == old(ffmpeg.logListeners)
      ensures old(ffmpeg) == null ==> fresh(ffmpeg) && ffmpeg.progressListeners == [] && |ffmpeg.logListeners| == 1
      ensures r.Ok? <==> (old(ffmpeg) != null || loads) && run.Produces?
      ensures r.Ok? ==> r.value == Converted(run.data, options.format)
      ensures r.Err? ==> r.error == (if old(ffmpeg) == null && !loads then LoadFailed
                                     else if run.WriteFails? then InputRejected else ExecFailed)
      ensures ffmpeg.execCalls ==
        if (old(ffmpeg) == null && !loads) || run.WriteFails? then old(ExecHistory())
        else old(ExecHistory()) + [ConversionArgs(ScratchName("input_", inputToken, InputExtension(file.name)),
                                                  options.format, options.bitrate,
                                                  ScratchName("output_", outputToken, options.format))]
    {
      if ffmpeg == null {
        var init := InitFFmpeg(loads);
        if init.Err? {
          return Err(init.error);
        }
      }
      var instance := ffmpeg;
      ghost var listenersBefore := instance.progressListeners;
      var handler := new Listener;
      instance.On(Progress, handler);
      var inputName := ScratchName("input_", inputToken, InputExtension(file.name));
      var outputName := ScratchName("output_", outputToken, options.format);
      if run.WriteFails? {
        r := Err(InputRejected);
      } else {
        var args := BuildArgs(inputName, options.format, options.bitrate, outputName);
        instance.Exec(args);
        if run.ExecFails? {
          r := Err(ExecFailed);
        } else {
          r := Ok(Converted(run.data, options.format));
        }
      }
      // the `finally` block
      instance.Off(Progress, handler);
      WithoutAppended(listenersBefore, handler);
    }

    /**
     * `getFileInfo`: initialises the engine if needed, writes the file under
     * a scratch name, and runs `-i <name>` with a log listener attached that
     * reads the bitrate from each message; the command's own failure is
     * swallowed. The listener is detached afterwards.
     */
    method GetFileInfo(file: File, tempToken: string, loads: bool, written: bool, logs: seq<string>)
      returns (r: Result<FileInfo, EngineError>)
      modifies this, ffmpeg
      ensures ffmpeg != null
      ensures old(ffmpeg) != null ==> ffmpeg == old(ffmpeg)
      ensures old(ffmpeg) != null ==>
        ffmpeg.logListeners == old(ffmpeg.logListeners) && ffmpeg.progressListeners == old(ffmpeg.progressListeners)
      ensures old(ffmpeg) == null ==> fresh(ffmpeg) && ffmpeg.progressListeners == [] && |ffmpeg.logListeners| == 1
      ensures r.Ok? <==> (old(ffmpeg) != null || loads) && written
      ensures r.Ok? ==> r.value == FileInfo(LastReportedBitrate(logs))
      ensures r.Err? ==> r.error == (if old(ffmpeg) == null && !loads then LoadFailed else InputRejected)
      ensures ffmpeg.execCalls ==
        if r.Ok? then old(ExecHistory()) + [["-i", "info_" + tempToken]] else old(ExecHistory())
    {
      if ffmpeg == null {
        var init := InitFFmpeg(loads);
        if init.Err? {
          return Err(init.error);
        }
      }
      var instance := ffmpeg;
      if !written {
        return Err(InputRejected);
      }
      var tempName := "info_" + tempToken;
      ghost var listenersBefore := instance.logListeners;
      var handler := new Listener;
      instance.On(Log, handler);
      instance.Exec(["-i", tempName]);
      // the handler sees every message logged while the probe runs
      var bitrate := ParseBitrateLog(logs);
      instance.Off(Log, handler);
      WithoutAppended(listenersBefore, handler);
      r := Ok(FileInfo(bitrate));
    }
  }
}

=== FILE: file_names.dfy ===
/**
 * File-name rules of the converter: the name under which a converted file is
 * handed to the download collaborator (src/engine/queue.js:61) and the input
 * extension the engine uses for its scratch input file (src/engine/ffmpegEngine.js:76).
 */
module FileNames {
  import opened Wrappers

  /** The index of the last occurrence of `c` in `s`, if any. */
  function LastIndexOf(s: string, c: char): (r: Option<nat>)
    ensures r.Some? ==> r.value < |s| && s[r.value] == c
    ensures r.Some? ==> forall j :: r.value < j < |s| ==> s[j] != c
    ensures r.None? ==> forall j :: 0 <= j < |s| ==> s[j] != c
  {
    if s == [] then None
    else if s[|s| - 1] == c then Some(|s| - 1)
    else LastIndexOf(s[..|s| - 1], c)
  }

  /**
   * A text that the pattern `\.[^/.]+$` matches as a whole: a dot followed by
   * one or more characters, none of which is a dot or a slash.
   */
  predicate IsExtensionSuffix(t: string) {
    |t| >= 2 && t[0] == '.' && forall j :: 1 <= j < |t| ==> t[j] != '.' && t[j] != '/'
  }

  /**
   * The name with its extension removed: `name.replace(/\.[^/.]+$/, '')`.
   * The pattern is anchored at the end and its class excludes the dot, so at
   * most one suffix of the name can match; when none does, the name is kept whole.
   */
  function StripExtension(name: string): (base: string)
    ensures base <= name
    ensures base != name ==> IsExtensionSuffix(name[|base|..])
    ensures base == name ==> forall k :: 0 <= k <= |name| ==> !IsExtensionSuffix(name[k..])
  {
    match LastIndexOf(name, '.')
    case None =>
      forall k | 0 <= k <= |name| && IsExtensionSuffix(name[k..]) ensures false {
        ExtensionSuffixStartsAtLastDot(name, k);
      }
      name
    case Some(i) =>
      if i + 1 < |name| && forall j :: i < j < |name| ==> name[j] != '/' then
        assert name[|name[..i]|..] == name[i..];
        name[..i]
      else
        forall k | 0 <= k <= |name| && IsExtensionSuffix(name[k..]) ensures false {
          ExtensionSuffixStartsAtLastDot(name, k);
        }
        name
  }

  /** A suffix the pattern matches begins at the last dot of the name, and nothing after that dot is a slash. */
  lemma ExtensionSuffixStartsAtLastDot(name: string, k: nat)
    requires k <= |name| && IsExtensionSuffix(name[k..])
    ensures LastIndexOf(name, '.') == Some(k)
    ensures k + 1 < |name| && forall j :: k < j < |name| ==> name[j] != '/'
  {
    assert name[k] == name[k..][0];
    forall j | k < j < |name| ensures name[j] != '.' && name[j] != '/' {
      assert name[j] == name[k..][j - k];
    }
  }

  /** The download name of a converted file: the base name, a dot and the output extension. */
  function OutputFileName(name: string, extension: string): (r: string)
    ensures |r| == |StripExtension(name)| + 1 + |extension|
    ensures r[..|StripExtension(name)|] <= name
    ensures r[|StripExtension(name)|..] == "." + extension
  {
    var base := StripExtension(name);
    var r := base + "." + extension;
    assert r[..|base|] == base;
    assert r[|base|..] == "." + extension;
    r
  }

  /** `s` does not contain `c`. */
  predicate Lacks(s: string, c: char) {
    forall k :: 0 <= k < |s| ==> s[k] != c
  }

  /** An extension the output-name rule can strip again: non-empty, with no dot and no slash. */
  predicate IsPlainExtension(extension: string) {
    |extension| >= 1 && Lacks(extension, '.') && Lacks(extension, '/')
  }

  /** The last occurrence of `c` is the one position holding `c` with no `c` after it. */
  lemma LastIndexOfAt(s: string, c: char, i: nat)
    requires i < |s| && s[i] == c
    requires forall j :: i < j < |s| ==> s[j] != c
    ensures LastIndexOf(s, c) == Some(i)
  {
    var r := LastIndexOf(s, c);
    assert r.Some?;
    assert r.value >= i;
  }

  /** In `base + "." + extension` with a dot-free extension, the added dot is the only one after `base`. */
  lemma DotFreeTail(base: string, extension: string)
    requires Lacks(extension, '.')
    ensures var t := base + "." + extension; t[|base|] == '.' && forall j :: |base| < j < |t| ==> t[j] != '.'
  {
    var t := base + "." + extension;
    forall j | |base| < j < |t| ensures t[j] != '.' {
      assert t[j] == extension[j - |base| - 1];
    }
  }

  /** In `base + "." + extension` with a dot-free extension, the added dot is the last one. */
  lemma LastDotOfJoin(base: string, extension: string)
    requires Lacks(extension, '.')
    ensures LastIndexOf(base + "." + extension, '.') == Some(|base|)
  {
    DotFreeTail(base, extension);
    LastIndexOfAt(base + "." + extension, '.', |base|);
  }

  /** Stripping the extension from a download name gives back the base name it was built from. */
  lemma StripOutputFileName(name: string, extension: string)
    requires IsPlainExtension(extension)
    ensures StripExtension(OutputFileName(name, extension)) == StripExtension(name)
  {
    var base := StripExtension(name);
    var out := OutputFileName(name, extension);
    LastDotOfJoin(base, extension);
    forall j | |base| < j < |out| ensures out[j] != '/' {
      assert out[j] == extension[j - |base| - 1];
    }
    assert out[..|base|] == base;
  }

  /** Renaming an already converted file to the same extension changes nothing. */
  lemma OutputFileNameIdempotent(name: string, extension: string)
    requires IsPlainExtension(extension)
    ensures OutputFileName(OutputFileName(name, extension), extension) == OutputFileName(name, extension)
  {
    StripOutputFileName(name, extension);
  }

  /** ASCII lower-casing of one character. */
  function LowerChar(c: char): char {
    if 'A' <= c <= 'Z' then (c as int - 'A' as int + 'a' as int) as char else c
  }

  /** ASCII lower-casing, character by character. */
  function ToLower(s: string): (r: string)
    ensures |r| == |s|
    ensures forall k :: 0 <= k < |s| ==> r[k] == LowerChar(s[k])
  {
    if s == [] then [] else [LowerChar(s[0])] + ToLower(s[1..])
  }

  /**
   * The input extension: `name.split('.').pop().toLowerCase()`, the text after
   * the last dot, lower-cased; the whole name when it has no dot.
   * The contract pins it down as the lower-cased longest dot-free suffix of the name.
   */
  function InputExtension(name: string): (ext: string)
    ensures |ext| <= |name|
    ensures forall j :: |name| - |ext| <= j < |name| ==> name[j] != '.'
    ensures ext == ToLower(name[|name| - |ext|..])
    ensures |ext| < |name| ==> name[|name| - |ext| - 1] == '.'
  {
    match LastIndexOf(name, '.')
    case None => ToLower(name)
    case Some(i) => ToLower(name[i + 1..])
  }

  /** The input extension of a download name is the output extension it was given, lower-cased. */
  lemma InputExtensionOfOutputFileName(name: string, extension: string)
    requires Lacks(extension, '.')
    ensures InputExtension(OutputFileName(name, extension)) == ToLower(extension)
  {
    var base := StripExtension(name);
    var out := OutputFileName(name, extension);
    LastDotOfJoin(base, extension);
    assert out[|base| + 1..] == extension;
  }

  /** Examples of the download-name rule. */
  lemma OutputFileNameExamples()
    ensures OutputFileName("a.b.flac", "m4a") == "a.b.m4a"
    ensures OutputFileName("song", "m4a") == "song.m4a"
    ensures OutputFileName("foo.", "m4a") == "foo..m4a"
    ensures OutputFileName("fileA", "m4a") == "fileA.m4a"
  {
    LastDotOfJoin("a.b", "flac");
    assert "a.b" + "." + "flac" == "a.b.flac";
    assert LastIndexOf("song", '.') == None;
    assert LastIndexOf("foo.", '.') == Some(3);
    assert LastIndexOf("fileA", '.') == None;
  }
}

=== FILE: queue.dfy ===
/**
 * The sequential conversion queue (src/engine/queue.js).
 *
 * `processNext` is asynchronous in the source. Here it is cut, at the
 * points where it waits for a collaborator's result, into steps the caller
 * drives in order:
 *   ProcessNext     the guard and selection (lines 31-45),
 *   AcquireWakeLock the wake-lock request and its stored result (lines 48-50),
 *   ReportProgress  the progress callback handed to the backend (lines 56-59),
 *   Complete        the outcome and the `finally` block (lines 60-71),
 * and the self-call at line 72 becomes the loop of `Drain`. What the backend
 * and the wake-lock collaborator return is a parameter of these steps. The
 * calls the queue makes into the observer, the wake-lock collaborator and
 * the download collaborator are appended to `calls`; the calls into the
 * engine (`initFFmpeg`, `convertAudio`) are not recorded, only their outcome.
 */
module Queue {
  import opened Wrappers
  import opened FileNames
  import opened FFmpegEngine

  datatype Status = Waiting | Processing | Completed | Error

  predicate IsTerminal(s: Status) {
    s == Completed || s == Error
  }

  /** One job: the file, its options, where it is in its life cycle, its progress and its id. */
  datatype Item = Item(file: File, options: Options, status: Status, progress: int, id: string)

  /** A wake lock handed out by the platform. */
  datatype Handle = Handle(id: nat)

  /** A call the queue makes into one of its collaborators. */
  datatype Call =
    | StatusChange(snapshot: seq<Item>)     // `onStatusChange` with a copy of the queue
    | RequestWakeLock(granted: Option<Handle>)
    | ReleaseWakeLock(handle: Handle)
    | Download(data: Bytes, name: string)   // `triggerDownload(data, outputName)`

  /**
   * What the collaborators do while one selected job runs: the wake lock the
   * platform grants if one is requested, the progress values the backend
   * reports, and how the initialisation and conversion end.
   */
  datatype Attempt = Attempt(granted: Option<Handle>, progress: seq<int>, result: Result<Converted, EngineError>)

  /** The fields of the queue, as a value. */
  datatype QueueState = QueueState(queue: seq<Item>, isProcessing: bool, wakeLock: Option<Handle>, calls: seq<Call>)

  /** The index of the earliest waiting job, as `queue.find` selects it. */
  function FirstWaiting(q: seq<Item>): (r: Option<nat>)
    ensures r.Some? ==> r.value < |q| && q[r.value].status == Waiting
    ensures r.Some? ==> forall j :: 0 <= j < r.value ==> q[j].status != Waiting
    ensures r.None? ==> forall j :: 0 <= j < |q| ==> q[j].status != Waiting
  {
    if q == [] then None
    else if q[0].status == Waiting then Some(0)
    else match FirstWaiting(q[1..])
      case None => None
      case Some(k) => Some(k + 1)
  }

  /** How many jobs are waiting. */
  function CountWaiting(q: seq<Item>): nat {
    if q == [] then 0 else (if q[0].status == Waiting then 1 else 0) + CountWaiting(q[1..])
  }

  predicate HasProcessing(q: seq<Item>) {
    exists j :: 0 <= j < |q| && q[j].status == Processing
  }

  predicate AtMostOneProcessing(q: seq<Item>) {
    forall j, k :: 0 <= j < |q| && 0 <= k < |q| && q[j].status == Processing && q[k].status == Processing ==> j == k
  }

  /**
   * The single-flight discipline: at most one job is processing, one is
   * exactly when `isProcessing` is set, a wake lock is only held once there
   * are jobs, and every snapshot shown to the observer had at most one job processing.
   */
  ghost predicate SingleFlight(s: QueueState) {
    AtMostOneProcessing(s.queue) &&
    (s.isProcessing <==> HasProcessing(s.queue)) &&
    (s.wakeLock.Some? ==> |s.queue| > 0) &&
    forall c :: c in s.calls && c.StatusChange? ==> AtMostOneProcessing(c.snapshot)
  }

  /** A job moves forward only: its file, options and id never change and a finished job never changes again. */
  predicate ItemEvolves(a: Item, b: Item) {
    b.file == a.file && b.options == a.options && b.id == a.id &&
    (IsTerminal(a.status) ==> b == a) &&
    (a.status == Processing ==> b.status != Waiting)
  }

  /** Jobs are never removed or reordered, and each moves forward only. */
  predicate Evolves(q: seq<Item>, q': seq<Item>) {
    |q| <= |q'| && forall j :: 0 <= j < |q| ==> ItemEvolves(q[j], q'[j])
  }

  lemma EvolvesTransitive(q: seq<Item>, q': seq<Item>, q'': seq<Item>)
    requires Evolves(q, q') && Evolves(q', q'')
    ensures Evolves(q, q'')
  {
    forall j | 0 <= j < |q| ensures ItemEvolves(q[j], q''[j]) {
      assert ItemEvolves(q[j], q'[j]) && ItemEvolves(q'[j], q''[j]);
    }
  }

  function ReleaseCalls(lock: Option<Handle>): seq<Call> {
    if lock.Some? then [ReleaseWakeLock(lock.value)] else []
  }

  /**
   * One call of `processNext` up to its first suspension, from state `s` to
   * state `t`, selecting `sel`. Busy or empty: nothing happens. No waiting
   * job: the run is over and a held wake lock is released. Otherwise the
   * earliest waiting job starts processing and the observer is told.
   */
  ghost predicate StartStep(s: QueueState, t: QueueState, sel: Option<nat>) {
    if s.isProcessing || |s.queue| == 0 then
      t == s && sel.None?
    else match FirstWaiting(s.queue)
      case None =>
        sel.None? && t == s.(wakeLock := None, calls := s.calls + ReleaseCalls(s.wakeLock))
      case Some(k) =>
        sel == Some(k) &&
        t.queue == s.queue[k := s.queue[k].(status := Processing)] &&
        t.isProcessing && t.wakeLock == s.wakeLock &&
        t.calls == s.calls + [StatusChange(t.queue)]
  }

  /** A start step keeps the single-flight discipline and moves jobs forward only. */
  lemma StartStepKeepsSingleFlight(s: QueueState, t: QueueState, sel: Option<nat>)
    requires SingleFlight(s) && StartStep(s, t, sel)
    ensures SingleFlight(t) && Evolves(s.queue, t.queue)
    ensures sel.Some? ==> t.isProcessing && sel.value < |t.queue| && t.queue[sel.value].status == Processing
  {
    if !s.isProcessing && |s.queue| > 0 && FirstWaiting(s.queue).Some? {
      var k := FirstWaiting(s.queue).value;
      assert t.queue[k].status == Processing;
      assert forall j :: 0 <= j < |s.queue| ==> s.queue[j].status != Processing;
      assert forall j :: 0 <= j < |t.queue| && j != k ==> t.queue[j] == s.queue[j];
    }
  }

  /** Appending waiting jobs keeps the single-flight discipline and moves no job. */
  lemma AppendWaitingKeepsSingleFlight(s: QueueState, items: seq<Item>)
    requires SingleFlight(s)
    requires forall k :: 0 <= k < |items| ==> items[k].status == Waiting
    ensures SingleFlight(s.(queue := s.queue + items))
    ensures Evolves(s.queue, s.queue + items)
  {
    var q := s.queue + items;
    assert forall j :: |s.queue| <= j < |q| ==> q[j].status == Waiting;
    assert forall j :: 0 <= j < |s.queue| ==> q[j] == s.queue[j];
  }

  /** Showing the current queue to the observer keeps the single-flight discipline. */
  lemma NoticeKeepsSingleFlight(s: QueueState)
    requires SingleFlight(s)
    ensures SingleFlight(s.(calls := s.calls + [StatusChange(s.queue)]))
  {
  }

  /** How a job ends once its backend run has resolved or thrown. */
  function Finished(item: Item, result: Result<Converted, EngineError>): (r: Item)
    ensures IsTerminal(r.status) && (r.status == Completed <==> result.Ok?)
    ensures r.file == item.file && r.options == item.options && r.id == item.id
    ensures result.Ok? ==> r.progress == 100
    ensures result.Err? ==> r.progress == item.progress
  {
    match result
    case Ok(_) => item.(status := Completed, progress := 100)
    case Err(_) => item.(status := Error)
  }

  /** The last value of `s`, or `d` when it is empty. */
  function LastOr(s: seq<int>, d: int): int {
    if s == [] then d else s[|s| - 1]
  }

  /** How a job ends after the progress of `a` has been relayed and its result recorded. */
  function AfterAttempt(item: Item, a: Attempt): Item {
    Finished(item.(progress := LastOr(a.progress, item.progress)), a.result)
  }

  /** The download handed off for a successful job: its data, under the file's base name with the output extension. */
  function DownloadCalls(item: Item, result: Result<Converted, EngineError>): seq<Call> {
    match result
    case Ok(c) => [Download(c.data, OutputFileName(item.file.name, c.extension))]
    case Err(_) => []
  }

  /**
   * The queue `q` after a run in which the waiting jobs, earliest first, met
   * the attempts in `attempts`: each waiting job takes the next attempt while
   * there is one; every other job stays as it is.
   */
  function Settled(q: seq<Item>, attempts: seq<Attempt>): (r: seq<Item>)
    ensures |r| == |q|
  {
    if q == [] then []
    else if q[0].status == Waiting && attempts != [] then
      [AfterAttempt(q[0], attempts[0])] + Settled(q[1..], attempts[1..])
    else [q[0]] + Settled(q[1..], attempts)
  }

  lemma {:induction false} SettledWithoutAttempts(q: seq<Item>)
    ensures Settled(q, []) == q
  {
    if q != [] {
      SettledWithoutAttempts(q[1..]);
    }
  }

  lemma {:induction false} CountWaitingAppend(a: seq<Item>, b: seq<Item>)
    ensures CountWaiting(a + b) == CountWaiting(a) + CountWaiting(b)
  {
    if a != [] {
      assert (a + b)[0] == a[0];
      assert (a + b)[1..] == a[1..] + b;
      CountWaitingAppend(a[1..], b);
    } else {
      assert a + b == b;
    }
  }

  lemma {:induction false} NoWaitingIffCountZero(q: seq<Item>)
    ensures FirstWaiting(q).None? <==> CountWaiting(q) == 0
  {
    if q != [] {
      NoWaitingIffCountZero(q[1..]);
    }
  }

  /** Each attempt used finishes one waiting job: the waiting count drops by the attempts, down to zero. */
  lemma {:induction false} CountWaitingSettled(q: seq<Item>, attempts: seq<Attempt>)
    ensures CountWaiting(Settled(q, attempts)) ==
            if |attempts| >= CountWaiting(q) then 0 else CountWaiting(q) - |attempts|
  {
    if q != [] {
      var r := Settled(q, attempts);
      if q[0].status == Waiting && attempts != [] {
        CountWaitingSettled(q[1..], attempts[1..]);
        assert r[1..] == Settled(q[1..], attempts[1..]);
      } else {
        CountWaitingSettled(q[1..], attempts);
        assert r[1..] == Settled(q[1..], attempts);
      }
    }
  }

  /** The earliest waiting job of a queue whose head does not wait is one further on than in its tail. */
  lemma FirstWaitingBehind(x: Item, t: seq<Item>)
    requires x.status != Waiting
    ensures FirstWaiting([x] + t) == match FirstWaiting(t) case None => None case Some(k) => Some(k + 1)
  {
    assert ([x] + t)[1..] == t;
  }

  /** Updating past the head of a queue updates its tail one position earlier. */
  lemma UpdateBehind(x: Item, t: seq<Item>, k: nat, v: Item)
    requires 1 <= k <= |t|
    ensures ([x] + t)[k := v] == [x] + t[k - 1 := v]
  {
  }

  /**
   * One more attempt finishes the earliest job still waiting after the
   * earlier attempts; once none is waiting, further attempts change nothing.
   */
  lemma {:induction false} SettledExtend(q: seq<Item>, attempts: seq<Attempt>, a: Attempt)
    ensures FirstWaiting(Settled(q, attempts)).Some? ==>
      var k := FirstWaiting(Settled(q, attempts)).value;
      Settled(q, attempts + [a]) == Settled(q, attempts)[k := AfterAttempt(Settled(q, attempts)[k], a)]
    ensures FirstWaiting(Settled(q, attempts)).None? ==> Settled(q, attempts + [a]) == Settled(q, attempts)
  {
    if q == [] {
      return;
    }
    var r := Settled(q, attempts);
    var r' := Settled(q, attempts + [a]);
    if q[0].status == Waiting && attempts != [] {
      var rest := Settled(q[1..], attempts[1..]);
      assert (attempts + [a])[1..] == attempts[1..] + [a];
      assert r == [r[0]] + rest;
      assert r' == [r[0]] + Settled(q[1..], attempts[1..] + [a]);
      SettledExtend(q[1..], attempts[1..], a);
      FirstWaitingBehind(r[0], rest);
      if FirstWaiting(rest).Some? {
        var k := FirstWaiting(rest).value;
        UpdateBehind(r[0], rest, k + 1, AfterAttempt(rest[k], a));
      }
    } else if q[0].status == Waiting {
      SettledWithoutAttempts(q);
      SettledWithoutAttempts(q[1..]);
      assert r' == [AfterAttempt(q[0], a)] + q[1..];
    } else {
      var rest := Settled(q[1..], attempts);
      assert r == [q[0]] + rest;
      assert r' == [q[0]] + Settled(q[1..], attempts + [a]);
      SettledExtend(q[1..], attempts, a);
      FirstWaitingBehind(q[0], rest);
      if FirstWaiting(rest).Some? {
        var k := FirstWaiting(rest).value;
        UpdateBehind(q[0], rest, k + 1, AfterAttempt(rest[k], a));
      }
    }
  }

  lemma {:induction false} SettledSaturated(q: seq<Item>, attempts: seq<Attempt>, more: seq<Attempt>)
    requires FirstWaiting(Settled(q, attempts)).None?
    ensures Settled(q, attempts + more) == Settled(q, attempts)
    decreases |more|
  {
    if more != [] {
      SettledExtend(q, attempts, more[0]);
      assert attempts + more == (attempts + [more[0]]) + more[1..];
      SettledSaturated(q, attempts + [more[0]], more[1..]);
    } else {
      assert attempts + more == attempts;
    }
  }

  /**
   * First in, first out, and each job on its own: the job at index `j`, if it
   * was waiting and is the r-th waiting job, ends as the r-th attempt made
   * it; every other job is untouched.
   */
  lemma {:induction false} SettledAt(q: seq<Item>, attempts: seq<Attempt>, j: nat)
    requires j < |q|
    ensures var r := CountWaiting(q[..j]);
      Settled(q, attempts)[j] ==
        if q[j].status == Waiting && r < |attempts| then AfterAttempt(q[j], attempts[r]) else q[j]
  {
    if j > 0 {
      assert q[..j] == [q[0]] + q[1..][..j - 1];
      CountWaitingAppend([q[0]], q[1..][..j - 1]);
      if q[0].status == Waiting && attempts != [] {
        SettledAt(q[1..], attempts[1..], j - 1);
      } else {
        SettledAt(q[1..], attempts, j - 1);
      }
    }
  }

  /** When every attempt succeeds and there are enough of them, every waiting job ends completed at 100. */
  lemma AllSucceed(q: seq<Item>, attempts: seq<Attempt>)
    requires |attempts| >= CountWaiting(q)
    requires forall k :: 0 <= k < |attempts| ==> attempts[k].result.Ok?
    ensures forall j :: 0 <= j < |q| && q[j].status == Waiting ==>
      Settled(q, attempts)[j].status == Completed && Settled(q, attempts)[j].progress == 100
    ensures forall j :: 0 <= j < |q| && q[j].status != Waiting ==> Settled(q, attempts)[j] == q[j]
  {
    forall j | 0 <= j < |q|
      ensures q[j].status == Waiting ==> Settled(q, attempts)[j].status == Completed && Settled(q, attempts)[j].progress == 100
      ensures q[j].status != Waiting ==> Settled(q, attempts)[j] == q[j]
    {
      SettledAt(q, attempts, j);
      assert q == q[..j] + q[j..];
      CountWaitingAppend(q[..j], q[j..]);
    }
  }

  /** One job failing leaves it alone in error: every other waiting job ends as its own attempt made it. */
  lemma FailureIsolated(q: seq<Item>, attempts: seq<Attempt>, failed: nat)
    requires |attempts| >= CountWaiting(q)
    requires failed < |attempts| && attempts[failed].result.Err?
    requires forall k :: 0 <= k < |attempts| && k != failed ==> attempts[k].result.Ok?
    ensures forall j :: 0 <= j < |q| && q[j].status == Waiting ==>
      Settled(q, attempts)[j].status == (if CountWaiting(q[..j]) == failed then Error else Completed)
  {
    forall j | 0 <= j < |q| && q[j].status == Waiting
      ensures Settled(q, attempts)[j].status == (if CountWaiting(q[..j]) == failed then Error else Completed)
    {
      SettledAt(q, attempts, j);
      assert q == q[..j] + q[j..];
      CountWaitingAppend(q[..j], q[j..]);
    }
  }

  /**
   * Where a run from the idle queue `q0` stands after the outcomes `done`:
   * either it is over, every job is as `Settled` says and no wake lock is
   * held, or the earliest job still waiting in `Settled` has been selected.
   */
  ghost predicate RunAfter(t: QueueState, q0: seq<Item>, done: seq<Attempt>, pending: Option<nat>) {
    var s := Settled(q0, done);
    if pending.None? then
      t.queue == s && FirstWaiting(s).None? && !t.isProcessing && t.wakeLock.None?
    else
      pending == FirstWaiting(s) && t.isProcessing &&
      t.queue == s[pending.value := s[pending.value].(status := Processing)]
  }

  /** A start step from an idle queue begins a run with no outcomes yet. */
  lemma RunStarts(s: QueueState, t: QueueState, sel: Option<nat>)
    requires SingleFlight(s) && !s.isProcessing && StartStep(s, t, sel)
    ensures RunAfter(t, s.queue, [], sel)
  {
    SettledWithoutAttempts(s.queue);
  }

  /**
   * A run that has used the first `n` outcomes and stopped, because nothing
   * is waiting or the outcomes are used up, is where `Drain` promises.
   */
  lemma RunEnds(t: QueueState, q0: seq<Item>, attempts: seq<Attempt>, n: nat, pending: Option<nat>)
    requires n <= |attempts| && (pending.None? || n == |attempts|)
    requires RunAfter(t, q0, attempts[..n], pending)
    ensures |attempts| >= CountWaiting(q0) ==>
      t.queue == Settled(q0, attempts) && !t.isProcessing && t.wakeLock.None? && pending.None?
    ensures |attempts| < CountWaiting(q0) ==>
      var s := Settled(q0, attempts);
      pending.Some? && pending == FirstWaiting(s) && t.isProcessing &&
      t.queue == s[pending.value := s[pending.value].(status := Processing)]
  {
    CountWaitingSettled(q0, attempts[..n]);
    NoWaitingIffCountZero(Settled(q0, attempts[..n]));
    if pending.None? {
      assert attempts == attempts[..n] + attempts[n..];
      SettledSaturated(q0, attempts[..n], attempts[n..]);
    } else {
      assert attempts[..n] == attempts;
    }
  }

  class ConversionQueue {
    var queue: seq<Item>
    var isProcessing: bool
    var wakeLock: Option<Handle>
    /** The calls made so far into the observer, the wake-lock collaborator and the download collaborator. */
    var calls: seq<Call>

    function State(): QueueState
      reads this
    {
      QueueState(queue, isProcessing, wakeLock, calls)
    }

    ghost predicate Valid()
      reads this
    {
      SingleFlight(State())
    }

    constructor ()
      ensures Valid()
      ensures queue == [] && !isProcessing && wakeLock.None? && calls == []
    {
      queue, isProcessing, wakeLock, calls := [], false, None, [];
    }

    /**
     * `addFiles`: appends one waiting job per file, in order, after all
     * existing jobs; with `autoStart` it runs the start of `processNext`;
     * then it shows the queue to the observer and returns the new jobs.
     * The ids are random strings in the source and are parameters here.
     */
    method AddFiles(files: seq<File>, options: Options, ids: seq<string>, autoStart: bool)
      returns (newItems: seq<Item>, started: Option<nat>)
      requires Valid()
      requires |ids| == |files|
      modifies this
      ensures Valid()
      ensures |newItems| == |files|
      ensures forall k :: 0 <= k < |files| ==> newItems[k] == Item(files[k], options, Waiting, 0, ids[k])
      ensures |calls| > 0 && calls[|calls| - 1] == StatusChange(queue)
      ensures var appended := old(State()).(queue := old(queue) + newItems);
              var beforeNotice := State().(calls := calls[..|calls| - 1]);
              if autoStart then StartStep(appended, beforeNotice, started)
              else beforeNotice == appended && started.None?
      ensures Evolves(old(queue), queue)
    {
      newItems := seq(|files|, k requires 0 <= k < |files| => Item(files[k], options, Waiting, 0, ids[k]));
      AppendWaitingKeepsSingleFlight(State(), newItems);
      queue := queue + newItems;
      ghost var appended := State();
      started := None;
      if autoStart {
        started := ProcessNext();
        EvolvesTransitive(old(queue), appended.queue, queue);
      }
      ghost var beforeNotice := State();
      NoticeKeepsSingleFlight(beforeNotice);
      calls := calls + [StatusChange(queue)];
      assert calls[..|calls| - 1] == beforeNotice.calls;
    }

    /**
     * `processNext` up to its first suspension: the single-flight guard, the
     * release of the wake lock once nothing is waiting, or the selection of
     * the earliest waiting job.
     */
    method ProcessNext() returns (sel: Option<nat>)
      requires Valid()
      modifies this
      ensures Valid()
      ensures StartStep(old(State()), State(), sel)
      ensures Evolves(old(queue), queue)
      ensures sel.Some? ==> sel.value < |queue| && queue[sel.value].status == Processing
    {
      if isProcessing || |queue| == 0 {
        return None;
      }
      var next := FirstWaiting(queue);
      if next.None? {
        if wakeLock.Some? {
          calls := calls + [ReleaseWakeLock(wakeLock.value)];
          wakeLock := None;
        }
        sel := None;
      } else {
        var k := next.value;
        isProcessing := true;
        queue := queue[k := queue[k].(status := Processing)];
        calls := calls + [StatusChange(queue)];
        sel := Some(k);
      }
      StartStepKeepsSingleFlight(old(State()), State(), sel);
    }

    /** The wake-lock request of a running job: made only when no wake lock is held. */
    method AcquireWakeLock(granted: Option<Handle>)
      requires Valid() && isProcessing
      modifies this
      ensures Valid()
      ensures queue == old(queue) && isProcessing
      ensures old(wakeLock).Some? ==> wakeLock == old(wakeLock) && calls == old(calls)
      ensures old(wakeLock).None? ==> wakeLock == granted && calls == old(calls) + [RequestWakeLock(granted)]
    {
      if wakeLock.None? {
        wakeLock := granted;
        calls := calls + [RequestWakeLock(granted)];
      }
    }

    /** The progress callback of a running job: stores the value as reported and shows the queue. */
    method ReportProgress(i: nat, percent: int)
      requires Valid() && i < |queue| && queue[i].status == Processing
      modifies this
      ensures Valid()
      ensures queue == old(queue)[i := old(queue)[i].(progress := percent)]
      ensures isProcessing == old(isProcessing) && wakeLock == old(wakeLock)
      ensures calls == old(calls) + [StatusChange(queue)]
      ensures Evolves(old(queue), queue)
    {
      queue := queue[i := queue[i].(progress := percent)];
      assert forall j :: 0 <= j < |queue| ==> queue[j].status == old(queue)[j].status;
      calls := calls + [StatusChange(queue)];
    }

    /**
     * The end of a running job: on success the output is handed to the
     * download collaborator and the job is completed at 100; on any failure,
     * engine initialisation included, it is marked as an error and nothing is
     * rethrown. Either way the queue is no longer processing and the observer is told.
     */
    method Complete(i: nat, result: Result<Converted, EngineError>)
      requires Valid() && i < |queue| && queue[i].status == Processing
      modifies this
      ensures Valid()
      ensures queue == old(queue)[i := Finished(old(queue)[i], result)]
      ensures !isProcessing && wakeLock == old(wakeLock)
      ensures calls == old(calls) + DownloadCalls(old(queue)[i], result) + [StatusChange(queue)]
      ensures Evolves(old(queue), queue)
    {
      var item := queue[i];
      if result.Ok? {
        var outputName := OutputFileName(item.file.name, result.value.extension);
        calls := calls + [Download(result.value.data, outputName)];
        queue := queue[i := item.(status := Completed, progress := 100)];
      } else {
        queue := queue[i := item.(status := Error)];
      }
      isProcessing := false;
      calls := calls + [StatusChange(queue)];
      assert forall j :: 0 <= j < |queue| ==> queue[j].status != Processing;
    }

    /**
     * The rest of one `processNext` run for the selected job `i`, after its
     * selection: the wake-lock request, the progress reports and the end of
     * the job, with the collaborators behaving as `a` says.
     */
    method RunSelected(i: nat, a: Attempt)
      requires Valid() && isProcessing && i < |queue| && queue[i].status == Processing
      modifies this
      ensures Valid()
      ensures queue == old(queue)[i := AfterAttempt(old(queue)[i], a)]
      ensures !isProcessing
      ensures wakeLock == if old(wakeLock).Some? then old(wakeLock) else a.granted
      ensures old(calls) <= calls
    {
      AcquireWakeLock(a.granted);
      ghost var running := queue;
      ghost var callsBefore := old(calls);
      var j := 0;
      while j < |a.progress|
        invariant 0 <= j <= |a.progress|
        invariant Valid() && isProcessing
        invariant queue == running[i := running[i].(progress := LastOr(a.progress[..j], running[i].progress))]
        invariant wakeLock == if old(wakeLock).Some? then old(wakeLock) else a.granted
        invariant callsBefore <= calls
      {
        ReportProgress(i, a.progress[j]);
        assert a.progress[..j + 1][..j] == a.progress[..j];
        j := j + 1;
      }
      assert a.progress[..j] == a.progress;
      Complete(i, a.result);
    }

    /** `getQueue`: the jobs in order. */
    method GetQueue() returns (q: seq<Item>)
      ensures q == queue
    {
      q := queue;
    }

    /** The selected job runs as `a` says and `processNext` calls itself again. */
    method Advance(ghost q0: seq<Item>, ghost done: seq<Attempt>, pending: Option<nat>, a: Attempt)
      returns (next: Option<nat>)
      requires Valid() && pending.Some? && RunAfter(State(), q0, done, pending)
      modifies this
      ensures Valid() && RunAfter(State(), q0, done + [a], next)
    {
      var i := pending.value;
      ghost var s := Settled(q0, done);
      RunSelected(i, a);
      assert queue == s[i := AfterAttempt(s[i], a)];
      SettledExtend(q0, done, a);
      next := ProcessNext();
    }

    /**
     * One trigger of `processNext` and the self-calls that follow it, with
     * the collaborators behaving as `attempts` says for the jobs selected in
     * turn. When the queue was idle and there are attempts for every waiting
     * job, it drains: the waiting jobs end as `Settled` says, nothing is
     * processing and no wake lock is held. With fewer attempts, the run
     * stops with the next job selected and still processing.
     */
    method Drain(attempts: seq<Attempt>) returns (pending: Option<nat>)
      requires Valid()
      modifies this
      ensures Valid()
      ensures old(isProcessing) ==> State() == old(State()) && pending.None?
      ensures !old(isProcessing) && |attempts| >= CountWaiting(old(queue)) ==>
        queue == Settled(old(queue), attempts) && !isProcessing && wakeLock.None? && pending.None?
      ensures !old(isProcessing) && |attempts| < CountWaiting(old(queue)) ==>
        var s := Settled(old(queue), attempts);
        pending.Some? && pending == FirstWaiting(s) && isProcessing &&
        queue == s[pending.value := s[pending.value].(status := Processing)]
    {
      var busy := isProcessing;
      pending := ProcessNext();
      if busy {
        return;
      }
      ghost var q0 := old(queue);
      RunStarts(old(State()), State(), pending);
      var n := 0;
      while pending.Some? && n < |attempts|
        invariant Valid()
        invariant 0 <= n <= |attempts|
        invariant RunAfter(State(), q0, attempts[..n], pending)
        decreases |attempts| - n
      {
        assert attempts[..n + 1] == attempts[..n] + [attempts[n]];
        pending := Advance(q0, attempts[..n], pending, attempts[n]);
        n := n + 1;
      }
      RunEnds(State(), q0, attempts, n, pending);
    }
  }
}

=== FILE: wrappers.dfy ===
/** Optional values and results with an error, used where the source has `null` or a thrown error. */
module Wrappers {

  datatype Option<+T> = None | Some(value: T)

  datatype Result<+T, +E> = Ok(value: T) | Err(error: E)
}
